=== FILE: README.md ===
# KarutaSniper drop handling, in Dafny

KarutaSniper is a self-bot that watches chat channels for Karuta card
drops and claims the cards its user wants. This project models the
decision logic inside `Main.on_message` in `main.py` and the small
helpers it calls. Each item below is a module of the project.

- **Dispatch**: which messages are read at all. A message is read only when
  the bot is ready, the author is the Karuta bot and the channel is watched.
  After that gate the handler checks, in order:
  - a blessing addressed to us (Evasion, or Generosity while auto-dropping,
    resets the cooldown);
  - a drop announcement, which is processed only while the cooldown timer
    is zero;
  - our own grab confirmation.
- **Layout**: the image classifier. The byte length and the pixel size of
  the drop image give the card count (3, 4 or 5). A five-card drop also gets
  a "watermelon" rare slot, chosen by the image height.
- **Ocr**: turning a directory listing of crop files into the per-card
  lists `charlist`, `anilist` and `printlist`. This covers:
  - the filter that skips crop files left over from a larger earlier drop;
  - the routing by `top`, `bottom` and `print` in the file name;
  - the text cleaning (`strip()`, then newlines to spaces);
  - the serial parse `int(re.sub(" \d$| ", "", s))`, with sentinel 9999999
    when it fails.

  Python's `str.strip`, `int()` and `str(int)` are written out in **Text**
  and **Ocr**.
- **Resolver**: which cards are claimed, and how.
  - If the rare slot is present and prioritised, only that slot is claimed.
  - Otherwise the character pass, the anime pass and the print pass each run
    over every card, in that order. There is no early exit.
  - Each claim becomes a button click in the button channels. Everywhere
    else it is a reaction: a keycap glyph, or the melon on the rare slot.
- **Drop**: the pipeline composed. It runs layout, listing, serial parse,
  then resolver.
- **Cooldown**: how the bot's state changes. The state is `timer`, `missed`
  and `collected`. The events are:
  - the one-second tick;
  - a claim that went through;
  - a refused reaction;
  - a grab confirmation;
  - a blessing reset.

The fuzzy matcher `api.isSomething` is a function parameter. So are the
OCR engine, as a map from a crop file name to the text read, and the
grab-confirmation regular expression.

Some facts about `main.py` that the model keeps:
- Every hit of every pass is claimed. A pass has no early exit (main.py:406-478).
- main.py itself never rejects an image for its size: every width, height and byte length picks a layout. No wait for a button edit or a reaction has a timeout (main.py:395, 400, 423, 428, 447, 452, 472, 477).
- The melon glyph marks the rare slot's index in every reaction (main.py:371-372). This includes character, anime and print claims that land on that index when prioritisation is off.
- The rare slot depends on the image geometry alone. The flag `is_watermelon_event` (main.py:254) is computed but never read.

## Model

| member | source | states |
|---|---|---|
| Layout.Classify | main.py:258-286 | The card count is 3 to 5. It is 3 exactly when the byte length is 836. It is 4 exactly when the length is not 836, the width is 836 and the height is below 400. A rare slot exists exactly for five cards and is always a valid index: slot 3 when the height is below 500, slot 4 otherwise. |
| Text.Strip | main.py:332 | The result has no Python whitespace at either end. It keeps every non-whitespace character of the input and adds none. |
| Text.StripPadded | main.py:332 | Stripping removes exactly the surrounding whitespace: a trimmed text padded with whitespace on both sides strips back to itself. |
| Text.TrimBySplits | main.py:332 | Every text is leading whitespace, its trimmed form, trailing whitespace, for either notion of whitespace (that of `strip()` or that of `int()`). With the padded lemmas this pins the trimmed form on every input. |
| Text.NatToString | main.py:220 | `str(n)`, as used for the user id in the mention prefix and for the card numbers in the crop file names, is non-empty, all ASCII digits, with no leading zero. |
| Ocr.CleanText | main.py:332-333 | A cleaned OCR text has no newline and no surrounding whitespace, and every non-whitespace character of the raw text occurs in it. |
| Ocr.CleanTextCore | main.py:332-333 | Every raw text is whitespace, a trimmed core, whitespace, and cleaning it gives exactly that core with each newline turned into a space, so the result is fixed on every input. |
| Ocr.CleanTextPadded | main.py:332-333 | Cleaning a trimmed text with any whitespace around it gives that text with each newline turned into a space, so a multi-line reading becomes one line. |
| Ocr.CleanTextIdempotent | main.py:332-333 | Cleaning twice is the same as cleaning once. |
| Ocr.SerialResidue | main.py:364 | The regex substitution leaves no space and introduces no character. |
| Ocr.RemoveSpacesAppend | main.py:364 | Removing spaces works piece by piece. The remaining characters keep their order and multiplicity. |
| Ocr.SplitResidue | main.py:364 | Between two digit runs, the second of two or more digits, the substitution removes exactly the separating space. |
| Ocr.SerialJoinsSplitNumeral | main.py:362-367 | A serial split by a space, with two or more digits after it, parses to the digits joined in order: a·10^len(b) + b. |
| Ocr.DigitsValueAppend | main.py:364 | The value of digits followed by more digits is the first value shifted one decimal place per later digit, plus the later value. |
| Ocr.RemoveSpaces | main.py:364 | The result holds every non-space character of the input and nothing else. A space-free input is returned unchanged. |
| Ocr.IntTrim | main.py:364 | Removes the whitespace `int()` skips from both ends: no such character is left at either end, every other character is kept, and none is added. U+001C to U+001F are not skipped. |
| Ocr.IntTrimPadded | main.py:364 | The text `int()` reads out of whitespace around a core that neither starts nor ends with such whitespace is exactly that core. |
| Ocr.PyInt | main.py:364 | `int()` accepts only a text that contains a digit. |
| Ocr.DigitsParse | main.py:364 | A non-empty run of ASCII digits is accepted by `int()` at its decimal value. |
| Ocr.NumeralParses | main.py:364 | `int(str(n)) == n` for every natural number. |
| Ocr.SerialOfNumeral | main.py:362-367 | A serial read as the plain numeral of n parses to n. |
| Ocr.SerialDropsEditionDigit | main.py:362-367 | A serial read as numeral, space, digit (the edition digit) parses to the numeral's value. The trailing digit is dropped. |
| Ocr.DigitlessSerialIsSentinel | main.py:362-367 | A serial text without any ASCII digit parses to the sentinel 9999999. |
| Ocr.ParseSerial | main.py:362-367 | A serial other than the sentinel comes only from a text that holds an ASCII digit. |
| Ocr.RemoveSpacesLeavesDigits | main.py:364 | Taking the spaces out of a text of ASCII digits and spaces leaves only digits. |
| Ocr.SerialOfSpacedDigitsWithEdition | main.py:362-367 | Any text of ASCII digits and spaces that holds a digit, followed by a space and one edition digit, parses to the value of all its digits joined in order; inner spaces and leading zeros do not matter and the edition digit is dropped. |
| Ocr.SerialOfSpacedDigits | main.py:362-367 | Any text of ASCII digits and spaces that holds a digit and does not end in a space and a digit parses to the value of all its digits joined in order. |
| Ocr.ForeignCharSerialIsSentinel | main.py:362-367 | A serial text holding a character that is not a digit, sign, underscore or whitespace `int()` skips parses to the sentinel. An example is U+001C. |
| Ocr.KeptCropFile | main.py:314-318 | A crop file of card k (1 to 5) is kept exactly when k is at most the current card count. |
| Ocr.KeepDigits | main.py:319-330 | `re.sub(r"\D", "", name)` keeps only digits and leaves an all-digit name alone. |
| Ocr.CropFileDigits | main.py:319-330 | The digits of a crop file's name are its card number, so the re-opened path is the crop itself. |
| Ocr.ReadFile | main.py:314-358 | One listing entry: a skipped leftover changes nothing. Otherwise each list only grows, by at most one entry in total. Serial texts are never read with print checking off. |
| Ocr.ReadFileJoin | main.py:314-358 | What a file contributes does not depend on what was read before it. |
| Ocr.Route | main.py:308-358 | The listing yields at most one text per file, and no serial texts with print checking off. |
| Ocr.RouteAppend | main.py:308-358 | Reading a listing in two parts and concatenating the results is reading it whole. |
| Ocr.ReadCropFile | main.py:314-358 | Card m's crop goes into the list of its own kind when card m belongs to the drop. Otherwise it is skipped. |
| Ocr.RouteCrops | main.py:314-358 | The crops of one kind for cards 1 to m yield exactly the texts of the cards up to the current count, in card order, in that kind's list. |
| Ocr.ListingAligned | main.py:308-358 | A sorted listing holding name and source crops of cards 1 to m, with m at least the card count, and print crops of cards 1 to mp, yields names and sources of length equal to the card count. With print checking on (then mp is at least the card count) the serial texts have that length too; with it off there are none, whatever print crops lie around. Entry i of each comes from card i+1's own crop. |
| Resolver.Scan | main.py:406-478 | One pass claims every card that satisfies its test and no other card, each once, in ascending index order. |
| Resolver.Resolve | main.py:385-478 | With the rare slot present and prioritised, the result is the one rare-slot claim. Otherwise no claim is a watermelon claim, and every index is a card's. |
| Resolver.CharacterClaimed | main.py:406-429 | A card is claimed by the character pass if and only if its name matches the character list and the name is not on the character blacklist, both at `accuracy`, and its source is not on the anime blacklist at `blaccuracy`. |
| Resolver.AnimeClaimed | main.py:430-453 | A card is claimed by the anime pass if and only if its source matches the anime list at `accuracy` and it passes the same two blacklist tests. |
| Resolver.PrintClaimed | main.py:454-478 | A card is claimed by the print pass if and only if print checking is on, its serial is at most the ceiling, and its source and name are not exact members of the blacklists. |
| Resolver.ClaimOrder | main.py:406-478 | Claims are attempted pass by pass (character, then anime, then print), and in ascending card index within a pass. |
| Resolver.BlacklistedNeverClaimed | main.py:406-478 | Suppose the matcher flags exact blacklist members. Then no claimed card has its name or source on a blacklist, except through the rare-slot override. |
| Resolver.UnreadableSerialNeverClaimed | main.py:367 | An unreadable serial never earns a print claim under a ceiling below 9999999. |
| Resolver.Emoji | main.py:370-383 | The rare slot's index gets the melon. Cards 0 to 4 otherwise get a glyph. No other index gets one. |
| Resolver.EmojiNamesCard | main.py:370-383 | The keycap of card b reads back as b. The melon reads back as no card. |
| Resolver.EmojiInjective | main.py:370-383 | Two different cards never get the same glyph. |
| Resolver.ActionFor | main.py:580-584 | A claim is a click exactly in the four button channels. |
| Resolver.ActionNamesCard | main.py:394-478 | For the override and for the claims of all three passes, a click presses the claimed card's button and a reaction's glyph names the claimed card, or is the melon on the rare slot. |
| Drop.ReadCards | main.py:362-367 | The serial list has one parsed value per serial text, in order, and is empty with print checking off. |
| Drop.DropClaims | main.py:385-478 | When the override fires, the result is the single rare-slot claim. When the lists can be indexed together, the result is the resolver's claims. The result is `None` exactly when neither holds; see Left out. |
| Drop.FiveCardDropClaimsRareSlot | main.py:280-286 | With prioritisation on, a five-card image yields exactly one claim: slot 3 below height 500, slot 4 otherwise. This holds for any listing and any keyword lists. |
| Drop.ListingResolves | main.py:308-478 | Over a listing of this drop's crops, possibly with a larger drop's leftovers, the drop always resolves, and every claim names one of this drop's cards. This includes a drop with print checking off, whose listing may hold no print crop at all (main.py:274, 302). |
| Drop.ListingSerials | main.py:351-367 | Over such a listing with print checking on, card i's serial is the parse of its own print crop's text. |
| Cooldown.Step | main.py:487-517 | The effect of each event. A tick lowers a positive timer by one. A claim adds 60 s and one miss. A refused reaction changes nothing. A grab adds 540 s and moves one miss to collected. A reset zeroes the timer. The claim effect is also the one at main.py:572-575, and the reset the blessing handling at main.py:222-227. |
| Cooldown.FromStart | main.py:150-153 | From the start state (timer 0, no misses, none collected), any run keeps the timer non-negative, has missed plus collected equal to the number of claims, and collected equal to the number of confirmed grabs. |
| Cooldown.RunValid | main.py:513-517 | No sequence of events makes the timer negative. |
| Cooldown.RunCounters | main.py:505-510 | Over any run, missed plus collected grows by the number of claims, and collected by the number of confirmed grabs. |
| Cooldown.TicksDrain | main.py:513-517 | n ticks take n seconds off the timer, never below zero, and leave the counters alone. |
| Cooldown.ClaimCooldownElapses | main.py:572-575 | After a claim made while idle, the bot is idle again after n ticks if and only if n is at least 60. |
| Dispatch.Dispatch | main.py:211-249 | Only a ready bot handles the Karuta bot's messages in watched channels. A drop is processed only while idle and only for a drop announcement. A handled message is a blessing exactly when it is addressed to us as one. Sending "kd" after a blessing implies a reset with auto-drop on. A message counts as a grab exactly when it passes the gate, is not a blessing, is not an admitted drop, and matches the grab pattern. |
| Dispatch.Apply | main.py:220-230 | The handler's own state changes, the blessing reset here and the grab update at main.py:487-489, keep the timer non-negative. |
| Dispatch.DropIffIdle | main.py:249 | A message past the gate that is not a blessing is processed as a drop if and only if the timer is zero and it announces a drop. |
| Dispatch.CoolingSkipsDrops | main.py:249 | While the timer is positive no message is processed as a drop. |
| Dispatch.BlessingResets | main.py:220-230 | An Evasion blessing addressed to us, or a Generosity one while auto-dropping, is handled as a blessing and leaves the timer at zero. |
| Dispatch.ContainsAfter | main.py:220 | A substring of a text is still a substring after anything is put in front of it. |

## Left out

- Discord I/O is not modelled:
  - the waits for the message edit and the reaction;
  - the random sleeps;
  - sending "kd";
  - the image download.

  Claims are a sequence of intended actions, and their outcome is a Cooldown event.
- Failures while getting the image are not modelled: a message without an attachment (`attachments[0]`, main.py:252), a download that is not a decodable image (`Image.open`, main.py:255), and errors raised by the cropping and OCR helpers, whose library is not part of this model.
- Image work is not modelled: `filelength`, cropping and Tesseract. The byte length and the image size are inputs. OCR is a function from a crop file name to a text.
- `api.isSomething` is external code. It is a parameter, and the thresholds are kept as reals without their float semantics.
- The grab-confirmation regular expression (main.py:479-482) is a predicate parameter, and the card name it captures is only logged.
- The `A wishlisted card is dropping!` test (main.py:246) only logs.
- Ocr.PyInt: accepts only ASCII digits. Python's `\d` and `int()` also accept other Unicode decimal digits, and CPython limits `int()` to 4300 digits. Neither is modelled.
- Ocr.Route: file names are compared without the `temp\char\` directory. The listing order is an input. `ListingAligned` assumes the sorted listing that a typical file system returns.
- Drop.DropClaims: returns `None`, and promises nothing about that drop, whenever the lists' lengths do not let every pass index every list. Python's `and` reads the other list only after the earlier tests pass. So with mismatched lists the handler often finishes every pass without any `IndexError`. When one is raised, it comes after the earlier claims were made. Neither outcome is modelled.
- Resolver.Resolve: requires lengths that let every pass index every list. Mismatched lengths are handled by `Drop.DropClaims`.
- The `cooldown` loop's one-second sleep and the window title are not modelled. The tick is an event.
- The auto-drop loop is not modelled: it waits for the timer to elapse and sends "kd".
- Also out: the file and config watching, logging, `update_check`, token discovery, `first_run_setup`, `check_requirements` and `install_requirements_gui.py`. These are plumbing with no decision logic.
- Live reloading is not modelled: `accuracy` and `prioritize_watermelon` from the config file (main.py:550-559), and the keyword lists. The configuration is an input to each drop.
- The handler is modelled as atomic, one message at a time. In `main.py` every `await` lets other coroutines run in between: the image download and cropping, `wait_for` without a timeout, and the sleeps. Those are ticks, blessings, grab confirmations, and a second drop admitted while the timer is still 0. Such a drop overwrites `self.cardnum`, `self.watermelon_pos` (which `emoji()` reads late) and the crop files. These interleavings are not modelled.
- Emoji glyphs are compared as code-point sequences.

=== FILE: cooldown.dfy ===
/**
 * The bot's cooldown timer and its two counters, and the events that change
 * them: the once-a-second tick, a successful claim, a refused reaction, a
 * grab confirmation and a blessing that resets the cooldown.
 */
module Cooldown {

  /** Seconds added by every claim attempt that went through. */
  const ClaimCooldown: int := 60
  /** Seconds added when a grab of ours is confirmed. */
  const GrabCooldown: int := 540

  /** `self.timer` (seconds until drops are processed again), `self.missed`, `self.collected`. */
  datatype BotState = BotState(timer: int, missed: int, collected: int)

  /** The state the bot starts in. */
  const Start: BotState := BotState(0, 0, 0)

  datatype Event =
    | Tick               // one turn of the `cooldown` loop
    | Claimed            // `afterclick`, or `react_add` whose reaction went through
    | ReactionForbidden  // `react_add` whose reaction was refused
    | GrabConfirmed      // "<@user> took the **…** card `…`!"
    | CooldownReset      // an Evasion blessing, or Generosity while auto-dropping

  /** The timer never counts below zero. */
  predicate Valid(s: BotState) {
    s.timer >= 0
  }

  /** Drops are processed only in this state. */
  predicate Idle(s: BotState) {
    s.timer == 0
  }

  function Step(s: BotState, e: Event): (s': BotState)
    ensures Valid(s) ==> Valid(s')
    ensures e == Tick ==> s'.timer == (if s.timer > 0 then s.timer - 1 else s.timer)
    ensures e == Claimed ==> s'.timer == s.timer + ClaimCooldown && s'.missed == s.missed + 1
    ensures e == ReactionForbidden ==> s' == s
    ensures e == GrabConfirmed ==>
              s'.timer == s.timer + GrabCooldown && s'.missed == s.missed - 1 && s'.collected == s.collected + 1
    ensures e == CooldownReset ==> Idle(s')
    ensures e != Tick && e != CooldownReset ==> s'.timer >= s.timer
    ensures s'.missed + s'.collected == s.missed + s.collected + (if e == Claimed then 1 else 0)
    ensures s'.collected == s.collected + (if e == GrabConfirmed then 1 else 0)
  {
    match e
    case Tick => if s.timer > 0 then s.(timer := s.timer - 1) else s
    case Claimed => s.(timer := s.timer + ClaimCooldown, missed := s.missed + 1)
    case ReactionForbidden => s
    case GrabConfirmed =>
      s.(timer := s.timer + GrabCooldown, missed := s.missed - 1, collected := s.collected + 1)
    case CooldownReset => s.(timer := 0)
  }

  /** The state after a sequence of events, applied in order. */
  function Run(s: BotState, es: seq<Event>): BotState
    decreases |es|
  {
    if es == [] then s else Run(Step(s, es[0]), es[1..])
  }

  function Count(es: seq<Event>, e: Event): nat
    decreases |es|
  {
    if es == [] then 0 else (if es[0] == e then 1 else 0) + Count(es[1..], e)
  }

  /** No sequence of events drives the timer below zero. */
  lemma {:induction false} RunValid(s: BotState, es: seq<Event>)
    requires Valid(s)
    ensures Valid(Run(s, es))
    decreases |es|
  {
    if es != [] {
      RunValid(Step(s, es[0]), es[1..]);
    }
  }

  /**
   * Every claim that went through counts as missed until its grab is
   * confirmed, which moves it to collected: the two counters together count
   * the claims, and collected counts the confirmations.
   */
  lemma {:induction false} RunCounters(s: BotState, es: seq<Event>)
    ensures Run(s, es).missed + Run(s, es).collected == s.missed + s.collected + Count(es, Claimed)
    ensures Run(s, es).collected == s.collected + Count(es, GrabConfirmed)
    decreases |es|
  {
    if es != [] {
      RunCounters(Step(s, es[0]), es[1..]);
    }
  }

  /**
   * From the state the bot starts in, any run keeps the timer non-negative,
   * counts every claim as missed or collected, and counts collected cards
   * by grab confirmations.
   */
  lemma FromStart(es: seq<Event>)
    ensures Valid(Run(Start, es))
    ensures Run(Start, es).missed + Run(Start, es).collected == Count(es, Claimed)
    ensures Run(Start, es).collected == Count(es, GrabConfirmed)
  {
    RunValid(Start, es);
    RunCounters(Start, es);
  }

  function Ticks(n: nat): (es: seq<Event>)
    ensures |es| == n && forall i :: 0 <= i < n ==> es[i] == Tick
  {
    seq(n, i => Tick)
  }

  /** `n` idle seconds take `n` off the timer, down to zero and no further; the counters stay. */
  lemma {:induction false} TicksDrain(s: BotState, n: nat)
    requires Valid(s)
    ensures Run(s, Ticks(n)) == s.(timer := if s.timer > n then s.timer - n else 0)
    decreases n
  {
    if n > 0 {
      assert Ticks(n)[0] == Tick;
      assert Ticks(n)[1..] == Ticks(n - 1);
      TicksDrain(Step(s, Tick), n - 1);
    }
  }

  /** After a claim from an idle state, exactly sixty ticks make the bot idle again, and no fewer. */
  lemma ClaimCooldownElapses(s: BotState, n: nat)
    requires Idle(s)
    ensures Idle(Run(s, [Claimed] + Ticks(n))) <==> n >= ClaimCooldown
    ensures Run(s, [Claimed] + Ticks(n)).missed == s.missed + 1
  {
    var es := [Claimed] + Ticks(n);
    assert es[0] == Claimed && es[1..] == Ticks(n);
    TicksDrain(Step(s, Claimed), n);
  }
}

=== FILE: dispatch.dfy ===
/**
 * How an incoming message is handled, in the order the message handler
 * tests: the sender and channel gate, then blessings, then drops (only
 * while idle), then grab confirmations.
 */
module Dispatch {
  import opened Text
  import opened Cooldown

  /** The user id of the card game's bot, the only author whose messages are read. */
  const GameBotId: int := 646937666251915264

  datatype Message = Message(author: int, channel: int, content: string)

  /** What the handler knows besides the message: readiness, our user id, watched channels, auto-drop. */
  datatype Session = Session(ready: bool, userId: nat, channels: seq<int>, autodrop: bool)

  datatype Handling =
    | Ignored
    | Blessing(reset: bool, dropAfter: bool)  // `dropAfter`: send the drop command afterwards
    | Drop
    | Grab

  /** `f"<@{user_id}>, your "`: how a blessing notice addressed to us begins. */
  function BlessingPrefix(userId: nat): string {
    "<@" + NatToString(userId) + ">, your "
  }

  predicate IsBlessing(content: string, userId: nat) {
    StartsWith(content, BlessingPrefix(userId)) && Contains(content, "blessing has activated!")
  }

  /**
   * A `re.search` hit for the drop pattern
   * `(is dropping [3-4] cards!)|(I'm dropping [3-4] cards since this server is currently active!)|(special event drop!)`.
   */
  predicate IsDropAnnouncement(content: string) {
    || Contains(content, "is dropping 3 cards!")
    || Contains(content, "is dropping 4 cards!")
    || Contains(content, "I'm dropping 3 cards since this server is currently active!")
    || Contains(content, "I'm dropping 4 cards since this server is currently active!")
    || Contains(content, "special event drop!")
  }

  /**
   * The branch the handler takes. `isGrab` is the grab-confirmation pattern
   * for our user id, a parameter of the model.
   */
  function Dispatch(s: BotState, msg: Message, session: Session, isGrab: string -> bool): (h: Handling)
    ensures h == Drop ==> Idle(s) && IsDropAnnouncement(msg.content)
    ensures h != Ignored ==> session.ready && msg.author == GameBotId && msg.channel in session.channels
    ensures h.Blessing? <==> h != Ignored && IsBlessing(msg.content, session.userId)
    ensures h.Blessing? && h.dropAfter ==> h.reset && session.autodrop
    ensures h == Grab <==>
              && session.ready && msg.author == GameBotId && msg.channel in session.channels
              && !IsBlessing(msg.content, session.userId)
              && !(Idle(s) && IsDropAnnouncement(msg.content))
              && isGrab(msg.content)
  {
    if !session.ready || msg.author != GameBotId || msg.channel !in session.channels then Ignored
    else if IsBlessing(msg.content, session.userId) then
      if Contains(msg.content, "Evasion") then Blessing(true, false)
      else if Contains(msg.content, "Generosity") && session.autodrop then Blessing(true, true)
      else Blessing(false, false)
    else if Idle(s) && IsDropAnnouncement(msg.content) then Drop
    else if isGrab(msg.content) then Grab
    else Ignored
  }

  /** The change the handler itself makes; a drop's changes come from its claims. */
  function Apply(s: BotState, h: Handling): (s': BotState)
    ensures Valid(s) ==> Valid(s')
  {
    match h
    case Blessing(reset, _) => if reset then Step(s, CooldownReset) else s
    case Grab => Step(s, GrabConfirmed)
    case _ => s
  }

  /** A message that passes the gate is processed as a drop exactly when the bot is idle and it announces one. */
  lemma DropIffIdle(s: BotState, msg: Message, session: Session, isGrab: string -> bool)
    requires session.ready && msg.author == GameBotId && msg.channel in session.channels
    requires !IsBlessing(msg.content, session.userId)
    ensures Dispatch(s, msg, session, isGrab) == Drop <==> Idle(s) && IsDropAnnouncement(msg.content)
  {
  }

  /** While cooling down, a drop announcement is passed on to the grab test, never processed as a drop. */
  lemma CoolingSkipsDrops(s: BotState, msg: Message, session: Session, isGrab: string -> bool)
    requires !Idle(s)
    ensures Dispatch(s, msg, session, isGrab) != Drop
  {
  }

  /**
   * An Evasion blessing addressed to us resets the cooldown whatever it was,
   * and so does a Generosity one while auto-dropping, which also sends a
   * drop; a blessing is never mistaken for a drop.
   */
  lemma BlessingResets(s: BotState, msg: Message, session: Session, isGrab: string -> bool, rest: string)
    requires session.ready && msg.author == GameBotId && msg.channel in session.channels
    requires msg.content == BlessingPrefix(session.userId) + rest
    requires Contains(rest, "blessing has activated!")
    requires Contains(rest, "Evasion") || (Contains(rest, "Generosity") && session.autodrop)
    ensures Dispatch(s, msg, session, isGrab).Blessing?
    ensures Idle(Apply(s, Dispatch(s, msg, session, isGrab)))
  {
    var p := BlessingPrefix(session.userId);
    assert msg.content[..|p|] == p;
    ContainsAfter(p, rest, "blessing has activated!");
    ContainsAfter(p, rest, "Evasion");
    ContainsAfter(p, rest, "Generosity");
  }

  /** What a string contains, it still contains behind any prefix. */
  lemma ContainsAfter(p: string, s: string, t: string)
    ensures Contains(s, t) ==> Contains(p + s, t)
  {
    if Contains(s, t) {
      var i: nat :| i <= |s| && OccursAt(s, t, i);
      assert (p + s)[|p| + i..|p| + i + |t|] == s[i..i + |t|];
      assert OccursAt(p + s, t, |p| + i);
    }
  }
}

=== FILE: drop.dfy ===
/**
 * One drop from image to claims: the layout decides the card count and the
 * rare slot, the scratch directory's listing is read into names, sources
 * and serial texts, the serials are parsed, and the resolver picks the
 * claims.
 */
module Drop {
  import opened Wrappers
  import opened Layout
  import opened Ocr
  import opened Resolver

  /** The per-card OCR results with every serial text parsed, unreadable ones to the sentinel. */
  function ReadCards(files: seq<string>, cards: nat, checkPrint: bool, ocr: string -> string): (c: Cards)
    ensures |c.serials| == |Route(files, cards, checkPrint, ocr).prints|
    ensures forall i :: 0 <= i < |c.serials| ==> c.serials[i] == ParseSerial(Route(files, cards, checkPrint, ocr).prints[i])
    ensures !checkPrint ==> c.serials == []
  {
    var e := Route(files, cards, checkPrint, ocr);
    Cards(e.names, e.sources, seq(|e.prints|, i requires 0 <= i < |e.prints| => ParseSerial(e.prints[i])))
  }

  /**
   * The claims for a drop whose image has the given byte length and size,
   * or `None` when the lists read from the listing do not have the lengths
   * that let every pass index every list; the model then promises nothing.
   */
  function DropClaims(fileLength: int, width: int, height: int, files: seq<string>, cfg: Config,
                      ocr: string -> string, m: Matcher): (r: Option<seq<Claim>>)
    ensures var l := Classify(fileLength, width, height);
            var c := ReadCards(files, l.cards, cfg.checkPrint, ocr);
            r.None? <==> !Overrides(l.rareSlot, cfg) && !Indexable(c, cfg)
    ensures var l := Classify(fileLength, width, height);
            Overrides(l.rareSlot, cfg) ==> r == Some([Claim(l.rareSlot.value, Watermelon)])
    ensures var l := Classify(fileLength, width, height);
            var c := ReadCards(files, l.cards, cfg.checkPrint, ocr);
            !Overrides(l.rareSlot, cfg) && Indexable(c, cfg) ==> r == Some(Resolve(c, cfg, l.rareSlot, m))
  {
    var l := Classify(fileLength, width, height);
    var c := ReadCards(files, l.cards, cfg.checkPrint, ocr);
    if Overrides(l.rareSlot, cfg) || Indexable(c, cfg) then Some(Resolve(c, cfg, l.rareSlot, m))
    else None
  }

  /**
   * The directory listing after this drop's crops were written over those of
   * earlier drops: name and source crops of cards 1 to `m`, print crops of
   * cards 1 to `mp`.
   */
  function Listing(m: nat, mp: nat): seq<string> {
    Crops("bottom", m) + Crops("print", mp) + Crops("top", m)
  }

  /**
   * With prioritisation on, a five-card drop yields exactly one claim, for
   * the rare slot chosen by the image height, whatever the listing and the
   * keyword lists hold.
   */
  lemma FiveCardDropClaimsRareSlot(fileLength: int, width: int, height: int, files: seq<string>, cfg: Config,
                                   ocr: string -> string, m: Matcher)
    requires cfg.prioritizeWatermelon
    requires fileLength != ThreeCardLength && !(width == FourCardWidth && height < FourCardHeightLimit)
    ensures DropClaims(fileLength, width, height, files, cfg, ocr, m)
         == Some([Claim(if height < RareSlotHeightLimit then 3 else 4, Watermelon)])
  {
  }

  /**
   * Over a listing of this drop's crops, possibly with an earlier larger
   * drop's left over, every drop is resolved (no index error), and each
   * claim names one of this drop's cards. With print checking off this
   * drop writes no print crops, so any number of them, none included, may
   * be present.
   */
  lemma ListingResolves(fileLength: int, width: int, height: int, mPrev: nat, mPrints: nat, cfg: Config,
                        ocr: string -> string, m: Matcher)
    requires Classify(fileLength, width, height).cards <= mPrev <= 5 && mPrints <= 5
    requires cfg.checkPrint ==> Classify(fileLength, width, height).cards <= mPrints
    ensures var r := DropClaims(fileLength, width, height, Listing(mPrev, mPrints), cfg, ocr, m);
            && r.Some?
            && forall k :: 0 <= k < |r.value| ==> r.value[k].index < Classify(fileLength, width, height).cards
  {
    var l := Classify(fileLength, width, height);
    ListingAligned(l.cards, mPrev, mPrints, cfg.checkPrint, ocr);
    var c := ReadCards(Listing(mPrev, mPrints), l.cards, cfg.checkPrint, ocr);
    assert |c.names| == l.cards;
  }

  /**
   * Over such a listing, card `i`'s serial is the parsed text of its own
   * print crop, so the print pass compares each card with its own serial.
   */
  lemma ListingSerials(cards: nat, mPrev: nat, mPrints: nat, ocr: string -> string, i: nat)
    requires 3 <= cards <= mPrev <= 5 && cards <= mPrints <= 5 && i < cards
    ensures var c := ReadCards(Listing(mPrev, mPrints), cards, true, ocr);
            |c.serials| == cards && c.serials[i] == ParseSerial(Text.Strip(ocr(CropFile("print", i + 1))))
  {
    ListingAligned(cards, mPrev, mPrints, true, ocr);
  }
}

=== FILE: layout.dfy ===
/**
 * How a drop image is classified into a card count and an optional rare
 * ("watermelon") slot, from the image's byte length and pixel size alone.
 * The segmentation into crops that follows is done by an image library and is
 * not part of this model.
 */
module Layout {
  import opened Wrappers

  /** Byte length of the three-card image, and the width of the four-card image. */
  const ThreeCardLength: int := 836
  const FourCardWidth: int := 836
  /** A four-card image is shorter than this. */
  const FourCardHeightLimit: int := 400
  /** A five-card image shorter than this carries the rare slot at index 3, otherwise at 4. */
  const RareSlotHeightLimit: int := 500

  /** `cards` is `self.cardnum`; `rareSlot` is `self.watermelon_pos`. */
  datatype Layout = Layout(cards: nat, rareSlot: Option<nat>)

  /**
   * The card count and rare slot of a drop. The "special event drop" phrase
   * of the message plays no part: the source computes it and never reads it.
   */
  function Classify(fileLength: int, width: int, height: int): (l: Layout)
    ensures 3 <= l.cards <= 5
    ensures l.rareSlot.Some? <==> l.cards == 5
    ensures l.rareSlot.Some? ==> l.rareSlot.value < l.cards
    ensures fileLength == ThreeCardLength <==> l.cards == 3
    ensures l.cards == 4 <==>
              fileLength != ThreeCardLength && width == FourCardWidth && height < FourCardHeightLimit
    ensures l.rareSlot == Some(3) <==> l.cards == 5 && height < RareSlotHeightLimit
    ensures l.rareSlot == Some(4) <==> l.cards == 5 && RareSlotHeightLimit <= height
  {
    if fileLength == ThreeCardLength then
      Layout(3, None)
    else if width == FourCardWidth && height < FourCardHeightLimit then
      Layout(4, None)
    else
      Layout(5, Some(if height < RareSlotHeightLimit then 3 else 4))
  }
}

=== FILE: ocr.dfy ===
/**
 * What happens to OCR output before any matching: which crop files of the
 * scratch directory are read (stale ones from a larger earlier drop are
 * skipped), how name and source text is cleaned, and how the serial ("print
 * number") text becomes an integer. The OCR engine itself is a parameter.
 */
module Ocr {
  import opened Wrappers
  import opened Text

  /** The serial every unreadable print number gets; it never passes a ceiling below it. */
  const Sentinel: int := 9999999

  // ---------------------------------------------------------------------------
  // Name and source text
  // ---------------------------------------------------------------------------

  /** Every newline becomes a space; nothing else changes. */
  function NewlinesToSpaces(s: string): (r: string)
    ensures |r| == |s|
    ensures '\n' !in r
    ensures forall i :: 0 <= i < |s| ==> r[i] == (if s[i] == '\n' then ' ' else s[i])
  {
    seq(|s|, i requires 0 <= i < |s| => if s[i] == '\n' then ' ' else s[i])
  }

  /** `text.strip().replace("\n", " ")`: the cleaned name or source of a card. */
  function CleanText(s: string): (r: string)
    ensures Trimmed(r)
    ensures '\n' !in r
    ensures forall i :: 0 <= i < |s| && !IsSpace(s[i]) ==> s[i] in r
  {
    var t := Strip(s);
    var r := NewlinesToSpaces(t);
    assert r != [] ==> r[0] == t[0] && r[|r| - 1] == t[|t| - 1];
    r
  }

  /**
   * Cleaning a trimmed text padded with whitespace takes the padding off and
   * turns each line break inside the text into one space: a name the OCR
   * split over two lines comes back on one.
   */
  lemma CleanTextPadded(p: string, t: string, q: string)
    requires AllSpace(p) && AllSpace(q)
    requires Trimmed(t)
    ensures CleanText(p + t + q) == NewlinesToSpaces(t)
  {
    StripPadded(p, t, q);
  }

  /**
   * Every raw text is whitespace around a trimmed core, and cleaning it
   * gives that core with its line breaks turned into spaces.
   */
  lemma CleanTextCore(s: string)
    ensures exists p, t, q :: && AllSpace(p) && AllSpace(q) && Trimmed(t) && s == p + t + q
                              && CleanText(s) == NewlinesToSpaces(t)
  {
    var p, q := TrimByParts(IsSpace, s);
    CleanTextPadded(p, Strip(s), q);
  }

  lemma CleanTextIdempotent(s: string)
    ensures CleanText(CleanText(s)) == CleanText(s)
  {
    var t := CleanText(s);
    assert Strip(t) == t;
    assert NewlinesToSpaces(t) == t;
  }

  // ---------------------------------------------------------------------------
  // Serial numbers
  // ---------------------------------------------------------------------------

  function RemoveSpaces(s: string): (r: string)
    ensures ' ' !in r
    ensures forall c :: c in r ==> c in s
    ensures forall c :: c in s && c != ' ' ==> c in r
    ensures (forall i :: 0 <= i < |s| ==> s[i] != ' ') ==> r == s
    decreases |s|
  {
    if s == [] then []
    else (if s[0] == ' ' then [] else [s[0]]) + RemoveSpaces(s[1..])
  }

  /** Removing spaces works piece by piece: what is left keeps its order and multiplicity. */
  lemma {:induction false} RemoveSpacesAppend(a: string, b: string)
    ensures RemoveSpaces(a + b) == RemoveSpaces(a) + RemoveSpaces(b)
    decreases |a|
  {
    if a == [] {
      assert a + b == b;
    } else {
      assert (a + b)[0] == a[0];
      assert (a + b)[1..] == a[1..] + b;
      RemoveSpacesAppend(a[1..], b);
    }
  }

  /**
   * `re.sub(" \d$| ", "", s)`: a space followed by a final digit goes (the OCR
   * reads the card's edition digit next to the serial), and so does every
   * other space. `$` also matches just before a final newline.
   */
  function SerialResidue(s: string): (r: string)
    ensures ' ' !in r
    ensures forall c :: c in r ==> c in s
  {
    var n := |s|;
    var t :=
      if n >= 2 && s[n - 2] == ' ' && IsDigit(s[n - 1]) then s[..n - 2]
      else if n >= 3 && s[n - 1] == '\n' && s[n - 3] == ' ' && IsDigit(s[n - 2]) then s[..n - 3] + "\n"
      else s;
    assert forall c :: c in t ==> c in s by {
      if n >= 2 && s[n - 2] == ' ' && IsDigit(s[n - 1]) {
      } else if n >= 3 && s[n - 1] == '\n' && s[n - 3] == ' ' && IsDigit(s[n - 2]) {
        assert s[n - 1] in s;
      }
    }
    RemoveSpaces(t)
  }

  predicate DigitOrUnderscore(c: char) {
    IsDigit(c) || c == '_'
  }

  /** The digits of a base-10 literal as `int()` accepts them: digits, single underscores only between digits. */
  predicate DigitGroups(s: string) {
    && |s| > 0
    && IsDigit(s[0])
    && IsDigit(s[|s| - 1])
    && (forall i :: 0 <= i < |s| ==> DigitOrUnderscore(s[i]))
    && (forall i, j :: 0 <= i < j < |s| && s[i] == '_' && s[j] == '_' ==> i + 1 < j)
  }

  /** The number a run of digits and underscores spells, underscores ignored. */
  function DigitsValue(s: string): nat
    requires forall i :: 0 <= i < |s| ==> DigitOrUnderscore(s[i])
    decreases |s|
  {
    if s == [] then 0
    else
      var last := s[|s| - 1];
      assert DigitOrUnderscore(last);
      if last == '_' then DigitsValue(s[..|s| - 1])
      else 10 * DigitsValue(s[..|s| - 1]) + (last as int - '0' as int)
  }

  /** An optional sign immediately followed by digit groups, with no whitespace around. */
  function ParseLiteral(t: string): (r: Option<int>)
    ensures r.Some? ==> exists i :: 0 <= i < |t| && IsDigit(t[i])
  {
    if |t| > 0 && (t[0] == '+' || t[0] == '-') then
      var body := t[1..];
      if DigitGroups(body) then
        assert IsDigit(t[1]);
        var v: int := DigitsValue(body);
        Some(if t[0] == '-' then -v else v)
      else None
    else if DigitGroups(t) then
      assert IsDigit(t[0]);
      Some(DigitsValue(t))
    else None
  }

  /**
   * The whitespace `int()` skips around a literal. CPython translates only
   * non-ASCII whitespace to a space before parsing and then skips ASCII
   * whitespace, so the separators U+001C to U+001F, which `str.isspace`
   * accepts, are not skipped.
   */
  predicate IsIntSpace(c: char) {
    IsSpace(c) && !('\U{1C}' <= c <= '\U{1F}')
  }

  /** `s` with the whitespace `int()` skips taken off both ends. */
  function IntTrim(s: string): (r: string)
    ensures r == [] || (!IsIntSpace(r[0]) && !IsIntSpace(r[|r| - 1]))
    ensures forall c :: c in r ==> c in s
    ensures forall i :: 0 <= i < |s| && !IsIntSpace(s[i]) ==> s[i] in r
  {
    TrimBy(IsIntSpace, s)
  }

  predicate AllIntSpace(s: string) {
    AllBy(IsIntSpace, s)
  }

  /**
   * `int()` skips exactly the whitespace around a literal: whatever lies
   * between the first and last other characters, inner whitespace
   * included, is kept.
   */
  lemma IntTrimPadded(p: string, t: string, q: string)
    requires AllIntSpace(p) && AllIntSpace(q)
    requires t == [] || (!IsIntSpace(t[0]) && !IsIntSpace(t[|t| - 1]))
    ensures IntTrim(p + t + q) == t
  {
    TrimByPadded(IsIntSpace, p, t, q);
  }

  /** A text with no skippable whitespace at either end is left as it is. */
  lemma IntTrimFixed(s: string)
    requires s == [] || (!IsIntSpace(s[0]) && !IsIntSpace(s[|s| - 1]))
    ensures IntTrim(s) == s
  {
  }

  /**
   * Python's `int(s)` on a string: surrounding whitespace allowed, then an
   * optional sign immediately followed by digit groups; anything else is a
   * `ValueError`, here `None`.
   */
  function PyInt(s: string): (r: Option<int>)
    ensures r.Some? ==> exists i :: 0 <= i < |s| && IsDigit(s[i])
  {
    var t := IntTrim(s);
    var r := ParseLiteral(t);
    assert r.Some? ==> exists i :: 0 <= i < |s| && IsDigit(s[i]) by {
      if r.Some? {
        var i :| 0 <= i < |t| && IsDigit(t[i]);
        assert t[i] in s;
      }
    }
    r
  }

  /** The serial of one print-number text: its integer value, or `Sentinel` when `int()` fails. */
  function ParseSerial(s: string): (r: int)
    ensures r != Sentinel ==> exists i :: 0 <= i < |s| && IsDigit(s[i])
  {
    match PyInt(SerialResidue(s))
    case Some(v) =>
      var t := SerialResidue(s);
      assert exists i :: 0 <= i < |s| && IsDigit(s[i]) by {
        var i :| 0 <= i < |t| && IsDigit(t[i]);
        assert t[i] in s;
      }
      v
    case None => Sentinel
  }

  lemma {:induction false} NumeralValue(n: nat)
    ensures forall i :: 0 <= i < |NatToString(n)| ==> DigitOrUnderscore(NatToString(n)[i])
    ensures DigitsValue(NatToString(n)) == n
    decreases n
  {
    if n >= 10 {
      NumeralValue(n / 10);
      var s := NatToString(n);
      assert s[..|s| - 1] == NatToString(n / 10);
    }
  }

  lemma NumeralDigitGroups(n: nat)
    ensures DigitGroups(NatToString(n))
    ensures DigitsValue(NatToString(n)) == n
  {
    NumeralValue(n);
  }

  lemma NumeralTrimmed(n: nat)
    ensures IntTrim(NatToString(n)) == NatToString(n)
  {
    var s := NatToString(n);
    assert IsDigit(s[0]) && IsDigit(s[|s| - 1]);
    IntTrimFixed(s);
  }

  lemma NumeralParses(n: nat)
    ensures PyInt(NatToString(n)) == Some(n)
  {
    var s := NatToString(n);
    NumeralDigitGroups(n);
    assert s[0] != '+' && s[0] != '-';
    assert ParseLiteral(s) == Some(n);
    NumeralTrimmed(n);
  }

  lemma NumeralResidue(n: nat)
    ensures SerialResidue(NatToString(n)) == NatToString(n)
  {
    var s := NatToString(n);
    assert forall i :: 0 <= i < |s| ==> s[i] != ' ';
    assert |s| >= 2 ==> s[|s| - 2] != ' ';
    assert s[|s| - 1] != '\n';
  }

  /** A printed serial is read back as its value. */
  lemma SerialOfNumeral(n: nat)
    ensures ParseSerial(NatToString(n)) == n
  {
    NumeralResidue(n);
    NumeralParses(n);
  }

  /** The edition digit the OCR reads after a space is dropped from the serial. */
  lemma SerialDropsEditionDigit(n: nat, d: char)
    requires IsDigit(d)
    ensures ParseSerial(NatToString(n) + [' ', d]) == n
  {
    var s := NatToString(n);
    var x := s + [' ', d];
    assert x[..|x| - 2] == s;
    assert SerialResidue(x) == s;
    NumeralParses(n);
  }

  /** OCR serial text: ASCII digits and spaces. */
  predicate DigitsAndSpaces(x: string) {
    forall i :: 0 <= i < |x| ==> IsDigit(x[i]) || x[i] == ' '
  }

  /** Taking the spaces out of digits and spaces leaves only digits. */
  lemma RemoveSpacesLeavesDigits(x: string)
    requires DigitsAndSpaces(x)
    ensures forall i :: 0 <= i < |RemoveSpaces(x)| ==> IsDigit(RemoveSpaces(x)[i])
  {
    var r := RemoveSpaces(x);
    forall i | 0 <= i < |r|
      ensures IsDigit(r[i])
    {
      assert r[i] in x;
      var j :| 0 <= j < |x| && x[j] == r[i];
    }
  }

  /**
   * Digits and spaces followed by a space and an edition digit read as the
   * digits before it, joined in order, leading zeros and inner spaces
   * notwithstanding.
   */
  lemma SerialOfSpacedDigitsWithEdition(x: string, d: char)
    requires DigitsAndSpaces(x) && RemoveSpaces(x) != [] && IsDigit(d)
    ensures var r := RemoveSpaces(x);
            && (forall i :: 0 <= i < |r| ==> IsDigit(r[i]))
            && ParseSerial(x + [' ', d]) == DigitsValue(r)
  {
    var s := x + [' ', d];
    assert s[..|s| - 2] == x;
    assert SerialResidue(s) == RemoveSpaces(x);
    RemoveSpacesLeavesDigits(x);
    DigitsParse(RemoveSpaces(x));
  }

  /**
   * Digits and spaces that do not end in a space and a digit read as all
   * their digits joined in order, leading zeros and inner spaces
   * notwithstanding.
   */
  lemma SerialOfSpacedDigits(x: string)
    requires DigitsAndSpaces(x) && RemoveSpaces(x) != []
    requires !(|x| >= 2 && x[|x| - 2] == ' ' && IsDigit(x[|x| - 1]))
    ensures var r := RemoveSpaces(x);
            && (forall i :: 0 <= i < |r| ==> IsDigit(r[i]))
            && ParseSerial(x) == DigitsValue(r)
  {
    assert |x| >= 1 && x[|x| - 1] != '\n';
    assert SerialResidue(x) == RemoveSpaces(x);
    RemoveSpacesLeavesDigits(x);
    DigitsParse(RemoveSpaces(x));
  }

  /** A numeral of two or more digits has no single digit to stand for an edition. */
  lemma LongNumeral(n: nat)
    requires n >= 10
    ensures |NatToString(n)| >= 2
  {
    assert NatToString(n) == NatToString(n / 10) + [DigitChar(n % 10)];
  }

  /**
   * A serial the OCR split with a space reads as the digits joined, in
   * order, when the part after the space has two or more digits (a single
   * trailing digit would be taken for the edition).
   */
  lemma SerialJoinsSplitNumeral(a: nat, b: nat)
    requires b >= 10
    ensures ParseSerial(NatToString(a) + " " + NatToString(b)) == a * Pow10(|NatToString(b)|) + b
  {
    var x := NatToString(a);
    var y := NatToString(b);
    LongNumeral(b);
    SplitResidue(x, y);
    DigitsJoin(x, y);
    NumeralValue(a);
    NumeralValue(b);
    DigitsValueAppend(x, y);
    DigitsParse(x + y);
  }

  /** Between two runs of digits, the second of two or more digits, the space is all the substitution removes. */
  lemma SplitResidue(x: string, y: string)
    requires forall i :: 0 <= i < |x| ==> IsDigit(x[i])
    requires forall i :: 0 <= i < |y| ==> IsDigit(y[i])
    requires |y| >= 2
    ensures SerialResidue(x + " " + y) == x + y
  {
    var s := x + " " + y;
    assert s[|s| - 2] == y[|y| - 2] && s[|s| - 1] == y[|y| - 1];
    assert SerialResidue(s) == RemoveSpaces(s);
    RemoveSpacesAppend(x + " ", y);
    RemoveSpacesAppend(x, " ");
    assert RemoveSpaces(" ") == [];
    assert RemoveSpaces(x) == x;
    assert RemoveSpaces(y) == y;
    assert RemoveSpaces(x + " ") == x;
    assert x + " " + y == (x + " ") + y;
    assert RemoveSpaces(s) == x + y;
  }

  /** A non-empty run of ASCII digits is an integer literal worth its digits' value. */
  lemma DigitsParse(t: string)
    requires |t| > 0 && forall i :: 0 <= i < |t| ==> IsDigit(t[i])
    ensures forall i :: 0 <= i < |t| ==> DigitOrUnderscore(t[i])
    ensures PyInt(t) == Some(DigitsValue(t) as int)
  {
    assert IsDigit(t[0]) && IsDigit(t[|t| - 1]);
    IntTrimFixed(t);
    assert forall i :: 0 <= i < |t| ==> t[i] != '_';
    assert DigitGroups(t);
    assert t[0] != '+' && t[0] != '-';
    assert ParseLiteral(t) == Some(DigitsValue(t) as int);
  }

  function Pow10(k: nat): (p: nat)
    ensures p >= 1
  {
    if k == 0 then 1 else 10 * Pow10(k - 1)
  }

  /** Digits and underscores followed by digits are digits and underscores. */
  lemma DigitsJoin(x: string, y: string)
    requires forall i :: 0 <= i < |x| ==> DigitOrUnderscore(x[i])
    requires forall i :: 0 <= i < |y| ==> IsDigit(y[i])
    ensures forall i :: 0 <= i < |x + y| ==> DigitOrUnderscore((x + y)[i])
  {
    var xy := x + y;
    forall i | 0 <= i < |xy|
      ensures DigitOrUnderscore(xy[i])
    {
      if i < |x| { assert xy[i] == x[i]; } else { assert xy[i] == y[i - |x|]; }
    }
  }

  /** The value of digits written after others: the earlier ones are shifted one decimal place per later digit. */
  lemma {:induction false} DigitsValueAppend(x: string, y: string)
    requires forall i :: 0 <= i < |x| ==> DigitOrUnderscore(x[i])
    requires forall i :: 0 <= i < |y| ==> IsDigit(y[i])
    ensures forall i :: 0 <= i < |x + y| ==> DigitOrUnderscore((x + y)[i])
    ensures DigitsValue(x + y) == DigitsValue(x) * Pow10(|y|) + DigitsValue(y)
    decreases |y|
  {
    DigitsJoin(x, y);
    if y == [] {
      assert x + y == x;
    } else {
      var xy := x + y;
      var y' := y[..|y| - 1];
      assert xy[..|xy| - 1] == x + y';
      var last := y[|y| - 1];
      assert xy[|xy| - 1] == last && IsDigit(last);
      DigitsValueAppend(x, y');
      var d := last as int - '0' as int;
      var vx := DigitsValue(x);
      var vy' := DigitsValue(y');
      var p := Pow10(|y'|);
      assert DigitsValue(xy) == 10 * DigitsValue(x + y') + d;
      assert DigitsValue(y) == 10 * vy' + d;
      assert Pow10(|y|) == 10 * p;
      assert DigitsValue(xy) == 10 * (vx * p + vy') + d;
      ShiftDigit(vx, p, vy', d);
    }
  }

  lemma ShiftDigit(v: int, p: int, w: int, d: int)
    ensures 10 * (v * p + w) + d == v * (10 * p) + (10 * w + d)
  {
    calc {
      10 * (v * p + w) + d;
      10 * (v * p) + 10 * w + d;
      { assert 10 * (v * p) == v * (10 * p); }
      v * (10 * p) + (10 * w + d);
    }
  }


  /** Text without a single digit (the empty text among them) is an unreadable serial. */
  lemma DigitlessSerialIsSentinel(s: string)
    requires forall i :: 0 <= i < |s| ==> !IsDigit(s[i])
    ensures ParseSerial(s) == Sentinel
  {
    var r := SerialResidue(s);
    assert forall i :: 0 <= i < |r| ==> !IsDigit(r[i]) by {
      forall i | 0 <= i < |r|
        ensures !IsDigit(r[i])
      {
        assert r[i] in s;
      }
    }
  }

  /** One character no integer literal can hold makes the serial unreadable. */
  lemma ForeignCharSerialIsSentinel(s: string, k: nat)
    requires k < |s|
    requires !DigitOrUnderscore(s[k]) && !IsIntSpace(s[k]) && s[k] != '+' && s[k] != '-'
    ensures ParseSerial(s) == Sentinel
  {
    var c := s[k];
    var r := SerialResidue(s);
    assert c in r;
    var t := IntTrim(r);
    assert c in t;
    assert !DigitGroups(t);
    if |t| > 0 && (t[0] == '+' || t[0] == '-') {
      assert c in t[1..];
      assert !DigitGroups(t[1..]);
    }
  }

  // ---------------------------------------------------------------------------
  // Crop files of the scratch directory
  // ---------------------------------------------------------------------------

  /** The three crops the segmenter writes for every card: name, source and serial. */
  predicate IsCropKind(kind: string) {
    kind == "top" || kind == "bottom" || kind == "print"
  }

  /** The crop file of card `k` (counted from 1): `top1.png`, `bottom4.png`, `print5.png`. */
  function CropFile(kind: string, k: nat): string {
    kind + NatToString(k) + ".png"
  }

  /**
   * A file is read unless it names card 4 in a drop of fewer than four cards,
   * or card 5 in a drop of fewer than five: leftovers of an earlier, larger
   * drop. (A one-character `in` test on a string is membership.)
   */
  predicate Kept(name: string, cards: nat) {
    && !('4' in name && cards < 4)
    && !('5' in name && cards < 5)
  }

  /** Of the crop files of cards 1 to 5, exactly those of the current drop's cards are read. */
  lemma KeptCropFile(kind: string, k: nat, cards: nat)
    requires IsCropKind(kind)
    requires 1 <= k <= 5 && 3 <= cards <= 5
    ensures Kept(CropFile(kind, k), cards) <==> k <= cards
  {
    var d := DigitChar(k);
    assert NatToString(k) == [d];
    assert CropFile(kind, k) == kind + [d] + ".png";
    assert '4' in CropFile(kind, k) <==> k == 4;
    assert '5' in CropFile(kind, k) <==> k == 5;
  }

  /** `re.sub(r"\D", "", s)`: the digits of `s`, in order. */
  function KeepDigits(s: string): (r: string)
    ensures forall i :: 0 <= i < |r| ==> IsDigit(r[i])
    ensures (forall i :: 0 <= i < |s| ==> IsDigit(s[i])) ==> r == s
    decreases |s|
  {
    if s == [] then []
    else (if IsDigit(s[0]) then [s[0]] else []) + KeepDigits(s[1..])
  }

  lemma {:induction false} KeepDigitsAppend(a: string, b: string)
    ensures KeepDigits(a + b) == KeepDigits(a) + KeepDigits(b)
    decreases |a|
  {
    if a != [] {
      assert (a + b)[1..] == a[1..] + b;
      KeepDigitsAppend(a[1..], b);
    } else {
      assert a + b == b;
    }
  }

  lemma {:induction false} NoDigitsKept(s: string)
    requires forall i :: 0 <= i < |s| ==> !IsDigit(s[i])
    ensures KeepDigits(s) == []
    decreases |s|
  {
    if s != [] {
      NoDigitsKept(s[1..]);
    }
  }

  lemma CropFileDigits(kind: string, k: nat)
    requires IsCropKind(kind) && 1 <= k <= 9
    ensures KeepDigits(CropFile(kind, k)) == NatToString(k)
  {
    var d := DigitChar(k);
    assert NatToString(k) == [d];
    assert CropFile(kind, k) == kind + [d] + ".png";
    KeepDigitsAppend(kind + [d], ".png");
    KeepDigitsAppend(kind, [d]);
    CropKindHasNoDigits(kind);
    NoDigitsKept(".png");
    assert KeepDigits([d]) == [d];
  }

  lemma CropKindHasNoDigits(kind: string)
    requires IsCropKind(kind)
    ensures KeepDigits(kind) == []
  {
    if kind == "top" {
      NoDigitsKept("top");
    } else if kind == "bottom" {
      NoDigitsKept("bottom");
    } else {
      NoDigitsKept("print");
    }
  }

  lemma CropFileHasKind(kind: string, k: nat)
    requires IsCropKind(kind) && 1 <= k <= 9
    ensures Contains(CropFile(kind, k), kind)
  {
    var d := DigitChar(k);
    assert NatToString(k) == [d];
    ContainsMiddle([], kind, [d] + ".png");
    assert [] + kind + ([d] + ".png") == CropFile(kind, k);
  }

  lemma CropFileNotTop(kind: string, k: nat)
    requires kind == "bottom" || kind == "print"
    requires 1 <= k <= 9
    ensures !Contains(CropFile(kind, k), "top")
  {
    var d := DigitChar(k);
    assert NatToString(k) == [d];
    var s := kind + [d] + ".png";
    assert CropFile(kind, k) == s;
    forall i: nat
      ensures !OccursAt(s, "top", i)
    {
      if i + 3 <= |s| {
        var w := s[i..i + 3];
        assert w[0] == s[i] && w[1] == s[i + 1] && w[2] == s[i + 2];
      }
    }
  }

  lemma PrintFileNotBottom(k: nat)
    requires 1 <= k <= 9
    ensures !Contains(CropFile("print", k), "bottom")
  {
    var d := DigitChar(k);
    assert NatToString(k) == [d];
    var s := "print" + [d] + ".png";
    assert CropFile("print", k) == s;
    forall i: nat
      ensures !OccursAt(s, "bottom", i)
    {
      if i + 6 <= |s| {
        var w := s[i..i + 6];
        assert w[0] == s[i];
      }
    }
  }

  /** The per-card texts of one drop, in the order their files were read. */
  datatype Extracted = Extracted(names: seq<string>, sources: seq<string>, prints: seq<string>)

  function Join(a: Extracted, b: Extracted): Extracted {
    Extracted(a.names + b.names, a.sources + b.sources, a.prints + b.prints)
  }

  /**
   * One turn of the loop over the directory listing: a leftover is skipped;
   * a `top` file is read as a name and a `bottom` file as a source, both
   * cleaned; a `print` file is read as a stripped serial text, and only when
   * print checking is on. `ocr` is the OCR engine applied to a file name.
   */
  function ReadFile(e: Extracted, f: string, cards: nat, checkPrint: bool, ocr: string -> string): (e': Extracted)
    ensures !Kept(f, cards) ==> e' == e
    ensures e.names <= e'.names && e.sources <= e'.sources && e.prints <= e'.prints
    ensures |e'.names| + |e'.sources| + |e'.prints| <= |e.names| + |e.sources| + |e.prints| + 1
    ensures !checkPrint ==> e'.prints == e.prints
  {
    if !Kept(f, cards) then e
    else if Contains(f, "top") then
      e.(names := e.names + [CleanText(ocr("top" + KeepDigits(f) + ".png"))])
    else if Contains(f, "bottom") then
      e.(sources := e.sources + [CleanText(ocr("bottom" + KeepDigits(f) + ".png"))])
    else if checkPrint && Contains(f, "print") then
      e.(prints := e.prints + [Strip(ocr(f))])
    else e
  }

  /** What a file contributes does not depend on what was read before it. */
  lemma ReadFileJoin(x: Extracted, y: Extracted, f: string, cards: nat, checkPrint: bool, ocr: string -> string)
    ensures ReadFile(Join(x, y), f, cards, checkPrint, ocr) == Join(x, ReadFile(y, f, cards, checkPrint, ocr))
  {
    var xy := Join(x, y);
    var top := Contains(f, "top");
    var bottom := Contains(f, "bottom");
    var isPrint := Contains(f, "print");
    if !Kept(f, cards) {
    } else if top {
      assert xy.names + [CleanText(ocr("top" + KeepDigits(f) + ".png"))]
          == x.names + (y.names + [CleanText(ocr("top" + KeepDigits(f) + ".png"))]);
    } else if bottom {
      assert xy.sources + [CleanText(ocr("bottom" + KeepDigits(f) + ".png"))]
          == x.sources + (y.sources + [CleanText(ocr("bottom" + KeepDigits(f) + ".png"))]);
    } else if checkPrint && isPrint {
      assert xy.prints + [Strip(ocr(f))] == x.prints + (y.prints + [Strip(ocr(f))]);
    }
  }

  /** The loop over the whole directory listing, in listing order. */
  function Route(files: seq<string>, cards: nat, checkPrint: bool, ocr: string -> string): (e: Extracted)
    ensures |e.names| + |e.sources| + |e.prints| <= |files|
    ensures !checkPrint ==> e.prints == []
    decreases |files|
  {
    if files == [] then Extracted([], [], [])
    else ReadFile(Route(files[..|files| - 1], cards, checkPrint, ocr), files[|files| - 1], cards, checkPrint, ocr)
  }

  lemma {:induction false} RouteAppend(a: seq<string>, b: seq<string>, cards: nat, checkPrint: bool, ocr: string -> string)
    ensures Route(a + b, cards, checkPrint, ocr) == Join(Route(a, cards, checkPrint, ocr), Route(b, cards, checkPrint, ocr))
    decreases |b|
  {
    var ra := Route(a, cards, checkPrint, ocr);
    if b == [] {
      assert a + b == a;
      assert Join(ra, Extracted([], [], [])) == ra;
    } else {
      var ab := a + b;
      var b' := b[..|b| - 1];
      assert ab[..|ab| - 1] == a + b';
      assert ab[|ab| - 1] == b[|b| - 1];
      RouteAppend(a, b', cards, checkPrint, ocr);
      ReadFileJoin(ra, Route(b', cards, checkPrint, ocr), b[|b| - 1], cards, checkPrint, ocr);
    }
  }

  /** The crop files of cards 1 to `m` of one kind, in ascending order. */
  function Crops(kind: string, m: nat): seq<string>
    decreases m
  {
    if m == 0 then [] else Crops(kind, m - 1) + [CropFile(kind, m)]
  }

  /** The text read from card `k`'s crop of one kind. */
  function CropText(kind: string, k: nat, ocr: string -> string): string {
    if kind == "print" then Strip(ocr(CropFile(kind, k))) else CleanText(ocr(CropFile(kind, k)))
  }

  /** The texts `text(1)` to `text(n)`, in card order. */
  function Texts(n: nat, text: nat -> string): (r: seq<string>)
    ensures |r| == n
    ensures forall i :: 0 <= i < n ==> r[i] == text(i + 1)
    decreases n
  {
    if n == 0 then [] else Texts(n - 1, text) + [text(n)]
  }

  /** The texts of cards 1 to `n` of one kind, in card order. */
  function CropTexts(kind: string, n: nat, ocr: string -> string): (r: seq<string>)
    ensures |r| == n
  {
    Texts(n, (k: nat) => CropText(kind, k, ocr))
  }

  /** `e` with `t` appended to the list of the given crop kind. */
  function AddText(e: Extracted, kind: string, t: string): Extracted {
    if kind == "top" then e.(names := e.names + [t])
    else if kind == "bottom" then e.(sources := e.sources + [t])
    else e.(prints := e.prints + [t])
  }

  /** Card `m`'s crop file is read into its own list when the card is part of the drop, and skipped otherwise. */
  lemma ReadCropFile(e: Extracted, kind: string, m: nat, cards: nat, checkPrint: bool, ocr: string -> string)
    requires IsCropKind(kind) && 1 <= m <= 5 && 3 <= cards <= 5
    ensures ReadFile(e, CropFile(kind, m), cards, checkPrint, ocr)
         == if m <= cards && (kind != "print" || checkPrint) then AddText(e, kind, CropText(kind, m, ocr)) else e
  {
    var f := CropFile(kind, m);
    KeptCropFile(kind, m, cards);
    CropFileDigits(kind, m);
    CropFileHasKind(kind, m);
    if kind != "top" {
      CropFileNotTop(kind, m);
    }
    if kind == "print" {
      PrintFileNotBottom(m);
    }
    assert kind + KeepDigits(f) + ".png" == f;
  }

  /** The texts of one crop kind in their own list, nothing in the others. */
  function Only(kind: string, texts: seq<string>, checkPrint: bool): Extracted {
    if kind == "top" then Extracted(texts, [], [])
    else if kind == "bottom" then Extracted([], texts, [])
    else if checkPrint then Extracted([], [], texts)
    else Extracted([], [], [])
  }

  /** Reading the crops of one kind for cards 1 to `m` yields the texts of the current drop's cards only. */
  lemma {:induction false} RouteCrops(kind: string, m: nat, cards: nat, checkPrint: bool, ocr: string -> string)
    requires IsCropKind(kind) && m <= 5 && 3 <= cards <= 5
    ensures Route(Crops(kind, m), cards, checkPrint, ocr)
         == Only(kind, CropTexts(kind, if m < cards then m else cards, ocr), checkPrint)
    decreases m
  {
    if m == 0 {
      assert Crops(kind, 0) == [];
      assert Route([], cards, checkPrint, ocr) == Extracted([], [], []);
      assert CropTexts(kind, 0, ocr) == [];
    } else {
      RouteCrops(kind, m - 1, cards, checkPrint, ocr);
      var files := Crops(kind, m);
      assert files[..|files| - 1] == Crops(kind, m - 1);
      assert files[|files| - 1] == CropFile(kind, m);
      var e := Route(Crops(kind, m - 1), cards, checkPrint, ocr);
      var e' := Route(files, cards, checkPrint, ocr);
      assert e' == ReadFile(e, CropFile(kind, m), cards, checkPrint, ocr);
      ReadCropFile(e, kind, m, cards, checkPrint, ocr);
      if m <= cards {
        var before := CropTexts(kind, m - 1, ocr);
        var t := CropText(kind, m, ocr);
        AddTextOnly(kind, before, t, checkPrint);
        assert e == Only(kind, before, checkPrint);
        if kind != "print" || checkPrint {
          assert e' == AddText(e, kind, t);
        } else {
          assert e' == e;
        }
        assert e' == Only(kind, before + [t], checkPrint);
        assert CropTexts(kind, m, ocr) == before + [t];
        assert e' == Only(kind, CropTexts(kind, m, ocr), checkPrint);
        assert (if m < cards then m else cards) == m;
      }
    }
  }

  lemma AddTextOnly(kind: string, texts: seq<string>, t: string, checkPrint: bool)
    requires IsCropKind(kind)
    ensures kind != "print" || checkPrint ==> AddText(Only(kind, texts, checkPrint), kind, t) == Only(kind, texts + [t], checkPrint)
    ensures kind == "print" && !checkPrint ==> Only(kind, texts, checkPrint) == Only(kind, texts + [t], checkPrint)
  {
  }

  /**
   * The alphabetical listing of a scratch directory holding the name and
   * source crops of cards 1 to `m` and the print crops of cards 1 to `mp`
   * (more than the card count when an earlier drop was larger; print crops
   * are only written with print checking on, so without it there may be
   * none) yields index-aligned names, sources and serial texts, one per
   * card of the current drop.
   */
  lemma ListingAligned(cards: nat, m: nat, mp: nat, checkPrint: bool, ocr: string -> string)
    requires 3 <= cards <= m <= 5 && mp <= 5
    requires checkPrint ==> cards <= mp
    ensures var e := Route(Crops("bottom", m) + Crops("print", mp) + Crops("top", m), cards, checkPrint, ocr);
            && |e.names| == cards && |e.sources| == cards
            && |e.prints| == (if checkPrint then cards else 0)
            && (forall i :: 0 <= i < cards ==> e.names[i] == CleanText(ocr(CropFile("top", i + 1))))
            && (forall i :: 0 <= i < cards ==> e.sources[i] == CleanText(ocr(CropFile("bottom", i + 1))))
            && (checkPrint ==> forall i :: 0 <= i < cards ==> e.prints[i] == Strip(ocr(CropFile("print", i + 1))))
  {
    ListingTexts(cards, m, mp, checkPrint, ocr);
    CleanedTexts("top", cards, ocr);
    CleanedTexts("bottom", cards, ocr);
    PrintTexts(cards, ocr);
  }

  /** The listing's three lists are the three kinds' texts of the current drop's cards. */
  lemma ListingTexts(cards: nat, m: nat, mp: nat, checkPrint: bool, ocr: string -> string)
    requires 3 <= cards <= m <= 5 && mp <= 5
    requires checkPrint ==> cards <= mp
    ensures Route(Crops("bottom", m) + Crops("print", mp) + Crops("top", m), cards, checkPrint, ocr)
         == Extracted(CropTexts("top", cards, ocr), CropTexts("bottom", cards, ocr),
                      if checkPrint then CropTexts("print", cards, ocr) else [])
  {
    var b := Crops("bottom", m);
    var p := Crops("print", mp);
    var t := Crops("top", m);
    RouteAppend(b + p, t, cards, checkPrint, ocr);
    RouteAppend(b, p, cards, checkPrint, ocr);
    RouteCrops("bottom", m, cards, checkPrint, ocr);
    RouteCrops("print", mp, cards, checkPrint, ocr);
    RouteCrops("top", m, cards, checkPrint, ocr);
    var prints := CropTexts("print", if mp < cards then mp else cards, ocr);
    assert checkPrint ==> prints == CropTexts("print", cards, ocr);
    JoinKinds(CropTexts("top", cards, ocr), CropTexts("bottom", cards, ocr), prints, checkPrint);
  }

  lemma CleanedTexts(kind: string, n: nat, ocr: string -> string)
    requires kind == "top" || kind == "bottom"
    ensures forall i :: 0 <= i < n ==> CropTexts(kind, n, ocr)[i] == CleanText(ocr(CropFile(kind, i + 1)))
  {
    forall i | 0 <= i < n
      ensures CropTexts(kind, n, ocr)[i] == CleanText(ocr(CropFile(kind, i + 1)))
    {
      assert CropTexts(kind, n, ocr)[i] == CropText(kind, i + 1, ocr);
    }
  }

  lemma PrintTexts(n: nat, ocr: string -> string)
    ensures forall i :: 0 <= i < n ==> CropTexts("print", n, ocr)[i] == Strip(ocr(CropFile("print", i + 1)))
  {
    forall i | 0 <= i < n
      ensures CropTexts("print", n, ocr)[i] == Strip(ocr(CropFile("print", i + 1)))
    {
      assert CropTexts("print", n, ocr)[i] == CropText("print", i + 1, ocr);
    }
  }

  /** The three kinds' lists, joined in listing order, land each in its own field. */
  lemma JoinKinds(names: seq<string>, sources: seq<string>, prints: seq<string>, checkPrint: bool)
    ensures Join(Join(Only("bottom", sources, checkPrint), Only("print", prints, checkPrint)), Only("top", names, checkPrint))
         == Extracted(names, sources, if checkPrint then prints else [])
  {
    assert "bottom" != "top" && "print" != "top" && "print" != "bottom";
    assert [] + sources + [] == sources && [] + [] + names == names;
  }
}

=== FILE: resolver.dfy ===
/**
 * Which cards of a drop get claimed, and how: the rare-slot override, then
 * the character, anime and print passes, each over every card in index
 * order, and the button or reaction used for a claim.
 */
module Resolver {
  import opened Wrappers
  import opened Text
  import Ocr

  /** `api.isSomething(candidate, list, threshold)`: the fuzzy matcher, a parameter of the model. */
  type Matcher = (string, seq<string>, real) -> bool

  /** The settings the resolver reads: keyword lists, thresholds, print checking, rare-slot priority. */
  datatype Config = Config(
    characters: seq<string>,
    animes: seq<string>,
    characterBlacklist: seq<string>,
    animeBlacklist: seq<string>,
    accuracy: real,
    blacklistAccuracy: real,
    checkPrint: bool,
    printCeiling: int,
    prioritizeWatermelon: bool)

  /** The OCR results of one drop: `charlist`, `anilist` and the parsed `printlist`. */
  datatype Cards = Cards(names: seq<string>, sources: seq<string>, serials: seq<int>)

  datatype Reason = Watermelon | Character | Anime | PrintNumber

  /** One claim attempt: the card index and why it was chosen. */
  datatype Claim = Claim(index: nat, reason: Reason)

  /** A rare slot is present and prioritised: it is claimed and nothing else is. */
  predicate Overrides(rareSlot: Option<nat>, cfg: Config) {
    rareSlot.Some? && cfg.prioritizeWatermelon
  }

  /** The passes index one list by another's indices; these lengths keep every such index in range. */
  predicate Indexable(c: Cards, cfg: Config) {
    |c.sources| == |c.names| && (cfg.checkPrint ==> |c.serials| <= |c.names|)
  }

  /** Card `i` is claimed by the character pass. The character blacklist is matched at `accuracy`, not at `blacklistAccuracy`. */
  predicate CharacterHit(c: Cards, cfg: Config, m: Matcher, i: nat)
    requires i < |c.names| && i < |c.sources|
  {
    && m(c.names[i], cfg.characters, cfg.accuracy)
    && !m(c.names[i], cfg.characterBlacklist, cfg.accuracy)
    && !m(c.sources[i], cfg.animeBlacklist, cfg.blacklistAccuracy)
  }

  /** Card `i` is claimed by the anime pass: the same exclusions, the watch-list matched against the source. */
  predicate AnimeHit(c: Cards, cfg: Config, m: Matcher, i: nat)
    requires i < |c.names| && i < |c.sources|
  {
    && m(c.sources[i], cfg.animes, cfg.accuracy)
    && !m(c.names[i], cfg.characterBlacklist, cfg.accuracy)
    && !m(c.sources[i], cfg.animeBlacklist, cfg.blacklistAccuracy)
  }

  /** Card `i` is claimed by the print pass: a low serial, and exact (not fuzzy) blacklist membership excludes. */
  predicate PrintHit(c: Cards, cfg: Config, i: nat)
    requires i < |c.serials| && i < |c.names| && i < |c.sources|
  {
    && c.serials[i] <= cfg.printCeiling
    && c.sources[i] !in cfg.animeBlacklist
    && c.names[i] !in cfg.characterBlacklist
  }

  /**
   * `for i in range(n): if hit(i): claim(i)` — every hit, in ascending
   * index order, with no early exit.
   */
  function Scan(n: nat, hit: nat -> bool, reason: Reason): (r: seq<Claim>)
    ensures forall k :: 0 <= k < |r| ==> r[k].reason == reason && r[k].index < n && hit(r[k].index)
    ensures forall i :: 0 <= i < n && hit(i) ==> Claim(i, reason) in r
    ensures forall j, k :: 0 <= j < k < |r| ==> r[j].index < r[k].index
    decreases n
  {
    if n == 0 then []
    else
      var r := Scan(n - 1, hit, reason);
      if hit(n - 1) then r + [Claim(n - 1, reason)] else r
  }

  function CharacterClaims(c: Cards, cfg: Config, m: Matcher): seq<Claim>
    requires Indexable(c, cfg)
  {
    Scan(|c.names|, (i: nat) => i < |c.names| && CharacterHit(c, cfg, m, i), Character)
  }

  function AnimeClaims(c: Cards, cfg: Config, m: Matcher): seq<Claim>
    requires Indexable(c, cfg)
  {
    Scan(|c.sources|, (i: nat) => i < |c.sources| && AnimeHit(c, cfg, m, i), Anime)
  }

  function PrintClaims(c: Cards, cfg: Config): seq<Claim>
    requires Indexable(c, cfg)
  {
    if cfg.checkPrint then
      Scan(|c.serials|, (i: nat) => i < |c.serials| && PrintHit(c, cfg, i), PrintNumber)
    else []
  }

  /**
   * Every claim of one drop, in the order they are attempted: the rare slot
   * alone when it overrides; otherwise the character pass, the anime pass
   * and the print pass, run one after the other in full.
   */
  function Resolve(c: Cards, cfg: Config, rareSlot: Option<nat>, m: Matcher): (r: seq<Claim>)
    requires Overrides(rareSlot, cfg) || Indexable(c, cfg)
    ensures Overrides(rareSlot, cfg) ==> r == [Claim(rareSlot.value, Watermelon)]
    ensures !Overrides(rareSlot, cfg) ==>
              forall k :: 0 <= k < |r| ==> r[k].reason != Watermelon && r[k].index < |c.names|
  {
    if Overrides(rareSlot, cfg) then [Claim(rareSlot.value, Watermelon)]
    else CharacterClaims(c, cfg, m) + AnimeClaims(c, cfg, m) + PrintClaims(c, cfg)
  }

  /** Without the override the character pass claims exactly its hits. */
  lemma CharacterClaimed(c: Cards, cfg: Config, rareSlot: Option<nat>, m: Matcher, i: nat)
    requires !Overrides(rareSlot, cfg) && Indexable(c, cfg)
    ensures Claim(i, Character) in Resolve(c, cfg, rareSlot, m)
        <==> i < |c.names| && CharacterHit(c, cfg, m, i)
  {
    var a := CharacterClaims(c, cfg, m);
    var b := AnimeClaims(c, cfg, m);
    var p := PrintClaims(c, cfg);
    assert Resolve(c, cfg, rareSlot, m) == a + b + p;
    assert Claim(i, Character) !in b + p;
  }

  /** Without the override the anime pass claims exactly its hits. */
  lemma AnimeClaimed(c: Cards, cfg: Config, rareSlot: Option<nat>, m: Matcher, i: nat)
    requires !Overrides(rareSlot, cfg) && Indexable(c, cfg)
    ensures Claim(i, Anime) in Resolve(c, cfg, rareSlot, m)
        <==> i < |c.sources| && AnimeHit(c, cfg, m, i)
  {
    var a := CharacterClaims(c, cfg, m);
    var b := AnimeClaims(c, cfg, m);
    var p := PrintClaims(c, cfg);
    assert Resolve(c, cfg, rareSlot, m) == a + b + p;
    assert Claim(i, Anime) !in a && Claim(i, Anime) !in p;
  }

  /** Without the override the print pass claims exactly its hits, and only with print checking on. */
  lemma PrintClaimed(c: Cards, cfg: Config, rareSlot: Option<nat>, m: Matcher, i: nat)
    requires !Overrides(rareSlot, cfg) && Indexable(c, cfg)
    ensures Claim(i, PrintNumber) in Resolve(c, cfg, rareSlot, m)
        <==> cfg.checkPrint && i < |c.serials| && PrintHit(c, cfg, i)
  {
    var a := CharacterClaims(c, cfg, m);
    var b := AnimeClaims(c, cfg, m);
    var p := PrintClaims(c, cfg);
    assert Resolve(c, cfg, rareSlot, m) == a + (b + p);
    assert Claim(i, PrintNumber) !in a && Claim(i, PrintNumber) !in b;
  }

  /** The position of a pass in the sequence of passes. */
  function Rank(reason: Reason): nat {
    match reason
    case Watermelon => 0
    case Character => 1
    case Anime => 2
    case PrintNumber => 3
  }

  /** Pass by pass, and by ascending index within a pass. */
  predicate InClaimOrder(r: seq<Claim>) {
    forall j, k :: 0 <= j < k < |r| ==>
      Rank(r[j].reason) < Rank(r[k].reason)
      || (r[j].reason == r[k].reason && r[j].index < r[k].index)
  }

  predicate AllFor(r: seq<Claim>, reason: Reason) {
    forall k :: 0 <= k < |r| ==> r[k].reason == reason
  }

  lemma ScanInOrder(n: nat, hit: nat -> bool, reason: Reason)
    ensures InClaimOrder(Scan(n, hit, reason)) && AllFor(Scan(n, hit, reason), reason)
  {
  }

  lemma ConcatInOrder(x: seq<Claim>, rx: Reason, y: seq<Claim>)
    requires InClaimOrder(x) && AllFor(x, rx) && InClaimOrder(y)
    requires forall k :: 0 <= k < |y| ==> Rank(rx) < Rank(y[k].reason)
    ensures InClaimOrder(x + y)
  {
    var r := x + y;
    forall j, k | 0 <= j < k < |r|
      ensures Rank(r[j].reason) < Rank(r[k].reason)
              || (r[j].reason == r[k].reason && r[j].index < r[k].index)
    {
      if k < |x| {
        assert r[j] == x[j] && r[k] == x[k];
      } else if j >= |x| {
        assert r[j] == y[j - |x|] && r[k] == y[k - |x|];
      } else {
        assert r[j] == x[j] && r[k] == y[k - |x|];
      }
    }
  }

  /**
   * Claims are attempted pass by pass (character, anime, print) and, within a
   * pass, in ascending card index.
   */
  lemma ClaimOrder(c: Cards, cfg: Config, rareSlot: Option<nat>, m: Matcher)
    requires !Overrides(rareSlot, cfg) && Indexable(c, cfg)
    ensures InClaimOrder(Resolve(c, cfg, rareSlot, m))
  {
    var a := CharacterClaims(c, cfg, m);
    var b := AnimeClaims(c, cfg, m);
    var p := PrintClaims(c, cfg);
    ScanInOrder(|c.names|, (i: nat) => i < |c.names| && CharacterHit(c, cfg, m, i), Character);
    ScanInOrder(|c.sources|, (i: nat) => i < |c.sources| && AnimeHit(c, cfg, m, i), Anime);
    if cfg.checkPrint {
      ScanInOrder(|c.serials|, (i: nat) => i < |c.serials| && PrintHit(c, cfg, i), PrintNumber);
    }
    assert InClaimOrder(a) && AllFor(a, Character);
    assert InClaimOrder(b) && AllFor(b, Anime);
    assert InClaimOrder(p) && AllFor(p, PrintNumber);
    ConcatInOrder(b, Anime, p);
    ConcatInOrder(a, Character, b + p);
    assert a + b + p == a + (b + p);
  }

  /**
   * If the matcher flags every exact member of a blacklist, no card whose
   * name or source is on a blacklist is ever claimed, except through the
   * rare-slot override.
   */
  lemma BlacklistedNeverClaimed(c: Cards, cfg: Config, rareSlot: Option<nat>, m: Matcher, k: nat)
    requires !Overrides(rareSlot, cfg) && Indexable(c, cfg)
    requires forall s :: s in cfg.characterBlacklist ==> m(s, cfg.characterBlacklist, cfg.accuracy)
    requires forall s :: s in cfg.animeBlacklist ==> m(s, cfg.animeBlacklist, cfg.blacklistAccuracy)
    requires k < |Resolve(c, cfg, rareSlot, m)|
    ensures var i := Resolve(c, cfg, rareSlot, m)[k].index;
            c.names[i] !in cfg.characterBlacklist && c.sources[i] !in cfg.animeBlacklist
  {
    var r := Resolve(c, cfg, rareSlot, m);
    var claim := r[k];
    assert claim in r;
    match claim.reason
    case Character =>
      CharacterClaimed(c, cfg, rareSlot, m, claim.index);
    case Anime =>
      AnimeClaimed(c, cfg, rareSlot, m, claim.index);
    case PrintNumber =>
      PrintClaimed(c, cfg, rareSlot, m, claim.index);
  }

  /** An unreadable serial never earns a print claim under any ceiling below the sentinel. */
  lemma UnreadableSerialNeverClaimed(c: Cards, cfg: Config, rareSlot: Option<nat>, m: Matcher, i: nat)
    requires !Overrides(rareSlot, cfg) && Indexable(c, cfg)
    requires i < |c.serials| && c.serials[i] == Ocr.Sentinel && cfg.printCeiling < Ocr.Sentinel
    ensures Claim(i, PrintNumber) !in Resolve(c, cfg, rareSlot, m)
  {
    PrintClaimed(c, cfg, rareSlot, m, i);
  }

  // ---------------------------------------------------------------------------
  // Claim actions
  // ---------------------------------------------------------------------------

  /** The reaction for the rare slot. */
  const Melon: string := "\U{1F349}"

  /** The keycap glyph of card `b` (counted from 0): digit `b + 1`, variation selector 16, enclosing keycap. */
  function Keycap(b: nat): string
    requires b < 5
  {
    [DigitChar(b + 1), '\U{FE0F}', '\U{20E3}']
  }

  /** `emoji(b)`: the rare slot's glyph wins; cards 0 to 4 have keycaps; anything else has none. */
  function Emoji(b: nat, rareSlot: Option<nat>): (r: Option<string>)
    ensures r.Some? <==> b < 5 || rareSlot == Some(b)
    ensures r == Some(Melon) <==> rareSlot == Some(b)
  {
    if rareSlot == Some(b) then Some(Melon)
    else if b < 5 then Some(Keycap(b))
    else None
  }

  /** Reads a reaction glyph back as a card index: the inverse of `Emoji` off the rare slot. */
  function GlyphIndex(g: string): Option<nat> {
    if |g| == 3 && '1' <= g[0] <= '5' && g[1] == '\U{FE0F}' && g[2] == '\U{20E3}'
    then Some(g[0] as int - '1' as int)
    else None
  }

  /** Every card off the rare slot gets a glyph that names it, and the rare slot's glyph names no card. */
  lemma EmojiNamesCard(b: nat, rareSlot: Option<nat>)
    ensures rareSlot != Some(b) && b < 5 ==> GlyphIndex(Emoji(b, rareSlot).value) == Some(b)
    ensures rareSlot == Some(b) ==> GlyphIndex(Emoji(b, rareSlot).value) == None
  {
  }

  /** Two cards never share a glyph. */
  lemma EmojiInjective(a: nat, b: nat, rareSlot: Option<nat>)
    requires Emoji(a, rareSlot).Some? && Emoji(a, rareSlot) == Emoji(b, rareSlot)
    ensures a == b
  {
    if rareSlot != Some(a) {
      EmojiNamesCard(a, rareSlot);
      EmojiNamesCard(b, rareSlot);
    }
  }

  /** Channels whose drops carry buttons; everywhere else a claim is a reaction. */
  const ButtonChannels: seq<int> :=
    [648044573536550922, 776520559621570621, 858004885809922078, 857978372688445481]

  predicate IsButton(cid: int) {
    cid in ButtonChannels
  }

  datatype Action = Click(button: nat) | React(glyph: Option<string>)

  /** The interaction that carries out a claim in channel `cid`. */
  function ActionFor(cid: int, claim: Claim, rareSlot: Option<nat>): (a: Action)
    ensures a.Click? <==> IsButton(cid)
  {
    if IsButton(cid) then Click(claim.index) else React(Emoji(claim.index, rareSlot))
  }

  /**
   * Every interaction names the claimed card: a button click presses its
   * button, a reaction's glyph reads back as its index, except on the rare
   * slot, which always gets the melon.
   */
  lemma ActionNamesCard(cid: int, claim: Claim, rareSlot: Option<nat>)
    requires claim.index < 5 || rareSlot == Some(claim.index)
    ensures var a := ActionFor(cid, claim, rareSlot);
            && (a.Click? ==> a.button == claim.index)
            && (a.React? && rareSlot == Some(claim.index) ==> a.glyph == Some(Melon))
            && (a.React? && rareSlot != Some(claim.index) ==> GlyphIndex(a.glyph.value) == Some(claim.index))
  {
    EmojiNamesCard(claim.index, rareSlot);
  }
}

=== FILE: text.dfy ===
/**
 * The handful of Python string built-ins the bot relies on: `str.isspace`,
 * `str.strip`, the `in` substring test, `str.startswith` and `str(int)` for
 * non-negative integers. Strings are sequences of Unicode scalar values.
 */
module Text {

  /** The characters Python's `str.isspace` accepts, which `str.strip()` removes. */
  predicate IsSpace(c: char) {
    || ('\t' <= c <= '\r')
    || ('\U{1C}' <= c <= ' ')
    || c == '\U{85}' || c == '\U{A0}' || c == '\U{1680}'
    || ('\U{2000}' <= c <= '\U{200A}')
    || c == '\U{2028}' || c == '\U{2029}' || c == '\U{202F}' || c == '\U{205F}'
    || c == '\U{3000}'
  }

  // ---------------------------------------------------------------------------
  // Trimming: `str.strip()` and the whitespace skipping of `int()` are one
  // algorithm over two notions of whitespace, `ws`.
  // ---------------------------------------------------------------------------

  /** Every character of `s` is whitespace in the sense of `ws`. */
  predicate AllBy(ws: char -> bool, s: string) {
    forall i :: 0 <= i < |s| ==> ws(s[i])
  }

  /** Neither end of `s` is whitespace in the sense of `ws`. */
  predicate TrimmedBy(ws: char -> bool, s: string) {
    s == [] || (!ws(s[0]) && !ws(s[|s| - 1]))
  }

  /** Whitespace in the sense of `ws` taken off either end until neither end is whitespace. */
  function TrimBy(ws: char -> bool, s: string): (r: string)
    ensures TrimmedBy(ws, r)
    ensures forall c :: c in r ==> c in s
    ensures forall i :: 0 <= i < |s| && !ws(s[i]) ==> s[i] in r
    decreases |s|
  {
    if |s| > 0 && ws(s[0]) then TrimBy(ws, s[1..])
    else if |s| > 0 && ws(s[|s| - 1]) then TrimBy(ws, s[..|s| - 1])
    else s
  }

  /** A string made only of whitespace trims to nothing. */
  lemma {:induction false} TrimByAll(ws: char -> bool, s: string)
    requires AllBy(ws, s)
    ensures TrimBy(ws, s) == []
    decreases |s|
  {
    if s != [] {
      TrimByAll(ws, s[1..]);
    }
  }

  /** Leading whitespace in front of a string that does not start with whitespace is trimmed away. */
  lemma {:induction false} TrimByLeading(ws: char -> bool, p: string, u: string)
    requires AllBy(ws, p)
    requires u == [] || !ws(u[0])
    ensures TrimBy(ws, p + u) == TrimBy(ws, u)
    decreases |p|
  {
    if p != [] {
      assert (p + u)[0] == p[0];
      assert (p + u)[1..] == p[1..] + u;
      TrimByLeading(ws, p[1..], u);
    } else {
      assert p + u == u;
    }
  }

  /** Trailing whitespace after a trimmed, non-empty string is trimmed away, and nothing else. */
  lemma {:induction false} TrimByTrailing(ws: char -> bool, t: string, q: string)
    requires t != [] && TrimmedBy(ws, t)
    requires AllBy(ws, q)
    ensures TrimBy(ws, t + q) == t
    decreases |q|
  {
    var s := t + q;
    assert s[0] == t[0];
    if q != [] {
      assert s[|s| - 1] == q[|q| - 1];
      assert s[..|s| - 1] == t + q[..|q| - 1];
      TrimByTrailing(ws, t, q[..|q| - 1]);
    } else {
      assert s == t;
    }
  }

  /** Trimming a string padded with whitespace gives back the trimmed core, inner whitespace included. */
  lemma TrimByPadded(ws: char -> bool, p: string, t: string, q: string)
    requires AllBy(ws, p) && AllBy(ws, q) && TrimmedBy(ws, t)
    ensures TrimBy(ws, p + t + q) == t
  {
    if t == [] {
      assert p + t + q == p + q;
      assert AllBy(ws, p + q);
      TrimByAll(ws, p + q);
    } else {
      assert p + t + q == p + (t + q);
      assert (t + q)[0] == t[0];
      TrimByLeading(ws, p, t + q);
      TrimByTrailing(ws, t, q);
    }
  }

  /** The whitespace `TrimBy` takes off the front and the back of `s`. */
  lemma {:induction false} TrimByParts(ws: char -> bool, s: string) returns (p: string, q: string)
    ensures AllBy(ws, p) && AllBy(ws, q)
    ensures s == p + TrimBy(ws, s) + q
    decreases |s|
  {
    if |s| > 0 && ws(s[0]) {
      var p', q' := TrimByParts(ws, s[1..]);
      p, q := [s[0]] + p', q';
      assert s == [s[0]] + s[1..] + [];
      MoreParts(ws, s, s[1..], [s[0]], [], p', TrimBy(ws, s), q');
    } else if |s| > 0 && ws(s[|s| - 1]) {
      var p', q' := TrimByParts(ws, s[..|s| - 1]);
      p, q := p', q' + [s[|s| - 1]];
      assert s == [] + s[..|s| - 1] + [s[|s| - 1]];
      MoreParts(ws, s, s[..|s| - 1], [], [s[|s| - 1]], p', TrimBy(ws, s), q');
    } else {
      p, q := [], [];
      assert s == [] + TrimBy(ws, s) + [];
    }
  }

  /** Whitespace `a` and `b` around a string `p + r + q` with whitespace `p` and `q` joins that whitespace. */
  lemma MoreParts(ws: char -> bool, s: string, s': string, a: string, b: string, p: string, r: string, q: string)
    requires s == a + s' + b && s' == p + r + q
    requires AllBy(ws, a) && AllBy(ws, b) && AllBy(ws, p) && AllBy(ws, q)
    ensures AllBy(ws, a + p) && AllBy(ws, q + b)
    ensures s == (a + p) + r + (q + b)
  {
    assert s == a + (p + r + q) + b;
  }

  /**
   * Every string is whitespace, its trimmed form, whitespace: with
   * TrimByPadded this pins the trimmed form on every input.
   */
  lemma TrimBySplits(ws: char -> bool, s: string)
    ensures exists p, q :: AllBy(ws, p) && AllBy(ws, q) && s == p + TrimBy(ws, s) + q
  {
    var p, q := TrimByParts(ws, s);
  }

  predicate AllSpace(s: string) {
    AllBy(IsSpace, s)
  }

  /** Neither end of `s` is whitespace: the shape of everything `str.strip()` returns. */
  predicate Trimmed(s: string) {
    TrimmedBy(IsSpace, s)
  }

  /** ASCII decimal digit (the class `[0-9]`). */
  predicate IsDigit(c: char) {
    '0' <= c <= '9'
  }

  /** Python's `s.strip()`: whitespace is taken off either end until neither end is whitespace. */
  function Strip(s: string): (r: string)
    ensures Trimmed(r)
    ensures forall c :: c in r ==> c in s
    ensures forall i :: 0 <= i < |s| && !IsSpace(s[i]) ==> s[i] in r
  {
    TrimBy(IsSpace, s)
  }

  /** Stripping a string padded with whitespace gives back the trimmed core. */
  lemma StripPadded(p: string, t: string, q: string)
    requires AllSpace(p) && AllSpace(q) && Trimmed(t)
    ensures Strip(p + t + q) == t
  {
    TrimByPadded(IsSpace, p, t, q);
  }

  /** `s.startswith(pre)`. */
  predicate StartsWith(s: string, pre: string) {
    |pre| <= |s| && s[..|pre|] == pre
  }

  /** `t` sits in `s` starting at offset `i`. */
  predicate OccursAt(s: string, t: string, i: nat) {
    i + |t| <= |s| && s[i..i + |t|] == t
  }

  /** Python's `t in s` for strings: `t` occurs as a contiguous piece of `s`. */
  predicate Contains(s: string, t: string) {
    exists i: nat | i <= |s| :: OccursAt(s, t, i)
  }

  /** A string contains every string it is glued around. */
  lemma ContainsMiddle(a: string, t: string, b: string)
    ensures Contains(a + t + b, t)
  {
    var s := a + t + b;
    assert s[|a|..|a| + |t|] == t;
    assert OccursAt(s, t, |a|);
  }

  function DigitChar(d: nat): (c: char)
    requires d < 10
    ensures IsDigit(c)
  {
    ('0' as int + d) as char
  }

  /** Python's `str(n)` for a non-negative integer: decimal, no leading zeros. */
  function NatToString(n: nat): (r: string)
    ensures 1 <= |r|
    ensures forall i :: 0 <= i < |r| ==> IsDigit(r[i])
    ensures |r| > 1 ==> r[0] != '0'
    decreases n
  {
    if n < 10 then [DigitChar(n)] else NatToString(n / 10) + [DigitChar(n % 10)]
  }
}

=== FILE: wrappers.dfy ===
/** A value that may be absent: Python's `None` next to a value. */
module Wrappers {

  datatype Option<+T> = None | Some(value: T)
}
